=== FILE: README.md ===
# Filled open paths in Illustrator documents — a Dafny model

Three Illustrator scripts walk every path item of a document before it goes to
print:

- `closeFilledPaths.jsx` repairs filled open paths and reports how many it left
  alone.
- `hard-validator.jsx` also offers to delete colourless paths and repairs with
  the same functions, but its path pass keeps no counts.
- `soft-validator.jsx` also unlocks and tidies layers and may reset raster
  settings, but its path pass changes no path. It sorts the paths into buckets
  and reports each bucket's size.

This project models the path logic these scripts share and proves properties of
it.

- **Geometry** holds the data. A path has anchors with two direction handles,
  the fill, stroke, closed, guide and clipping flags, the host's `area` reading,
  and its chain of containers (group, compound path, layer). The module also
  defines the outlines the host fills and strokes for a path. These serve as the
  reference for "closing keeps the fill shape".
- **Confirm** models the `Confirmer`, the dialog with a "do not show again"
  check box, as a record with a step function. The user's replies are an input
  sequence.
- **Classifier** holds `isLinear`, `isColorless`, `isCompounded` and the order in
  which the loops test a path.
- **Fixes** holds `closePath`, `fixFilledOpenPath`, `fixFilledLine` and
  `removeNeedlessItem`.
- **CloseFilledPaths** models the repair loop with its counters `spCount` and
  `fopCount`, in two forms. One is a fold over the paths, last index first. The
  other is a method that runs the loop as written and is proved equal to the
  fold.
- **HardValidator** is the validating fixer's `handlePathItems`. On documents
  without colourless paths it is proved to repair exactly as the repair loop
  does.
- **SoftValidator** is the read-only `handlePathItems` and its report.

A script mutates the document in place. The model instead returns, for each
input path, the sequence of paths that stands in its place afterwards:

- `[]` when the path was deleted;
- `[p]` when it was left alone;
- one changed path after a repair;
- two paths after a split.

Every dialog is answered from an input `Answers` record per path, one reply per
decision kind. A reply is read only when its confirmer shows the dialog.

The helpers copied between the scripts are identical. Each is modelled once, and
the table cites one copy. The other copies are:

- `confirmIfNeed`: hard-validator.jsx:36-64.
- `removeNeedlessItem`: hard-validator.jsx:279-290.
- `isLinear`: hard-validator.jsx:355-358 and soft-validator.jsx:271-274.
- `fixFilledLine`: hard-validator.jsx:366-378.
- `fixFilledOpenPath`: hard-validator.jsx:385-406.
- `closePath`: hard-validator.jsx:412-432.
- `isCompounded`: hard-validator.jsx:439-449.
- `isColorless`: soft-validator.jsx:262-264.

## Model

| member | source | states |
|---|---|---|
| Confirm.ConfirmIfNeed | src/validator/closeFilledPaths.jsx:102-130 | A prompting confirmer answers yes exactly when yes is pressed; a silent one answers its stored result. The state changes only when a shown dialog gets yes or no: the answer is stored, and the confirmer falls silent exactly when the box was ticked. A silent confirmer never prompts again |
| Confirm.Replay | src/validator/closeFilledPaths.jsx:102-130 | Successive calls give one answer each. An answer is yes only when the stored result was yes or the user pressed yes at that call or an earlier one |
| Confirm.FreshSaysYesOnlyAfterYes | src/validator/closeFilledPaths.jsx:84-85 | A confirmer fresh from its constructor (asking, stored result false) never answers yes before the user has pressed yes |
| Confirm.DontShowAgainIsSticky | src/validator/hard-validator.jsx:36-64 | A yes or no given with "do not show again" ticked answers that call and every later call on the confirmer, whatever the user would reply |
| Confirm.SilentConfirmerReplays | src/validator/closeFilledPaths.jsx:102-130 | A confirmer that no longer shows its dialog returns its stored result on every call |
| Confirm.AsksUntilTicked | src/validator/closeFilledPaths.jsx:102-130 | While the box is never ticked, each call shows the dialog and answers true exactly when yes is pressed; a closed dialog answers false |
| Confirm.DismissedKeepsState | src/validator/hard-validator.jsx:58-59 | Closing the dialog answers false and leaves `shouldConfirm` and `result` unchanged, so the next call asks again |
| Classifier.JsRound | src/validator/closeFilledPaths.jsx:342 | `Math.round` gives the integer within half of its argument, halves rounding up |
| Classifier.IsLinear | src/validator/closeFilledPaths.jsx:340-343 | A path is linear exactly when its absolute area times 100000 is below 0.5 |
| Classifier.IsLinearBoundary | src/validator/hard-validator.jsx:355-358 | Areas ±0.0000049 and 0 are linear; ±0.0000051 and 0.000005 itself are not |
| Classifier.ColorlessPaintsNothing | src/validator/hard-validator.jsx:346-348 | A path is colourless exactly when it paints neither fill nor stroke and is not a clipping mask |
| Classifier.IsCompounded | src/validator/closeFilledPaths.jsx:424-434 | A group is transparent: it answers as its own container does. A true answer means a compound path lies somewhere above the path |
| Classifier.IsCompoundedIffFirstNonGroupIsCompound | src/validator/closeFilledPaths.jsx:424-434 | `isCompounded` holds exactly when the first container above the path that is not a group is a compound path; a layer there gives false |
| Classifier.IsCompoundedExamples | src/validator/hard-validator.jsx:439-449 | Groups are transparent: a path two groups inside a compound path is compounded, one two groups inside a layer is not |
| Classifier.ColorlessIsNeverFixed | src/validator/hard-validator.jsx:346-348 | A colourless path (not filled, not stroked, not a clipping mask) never passes the fill guard; it is a stray point exactly when it has at most one anchor |
| Classifier.ClassifyFollowsCheckOrder | src/validator/closeFilledPaths.jsx:182-188 | The loops' check order: a path with at most one anchor is a stray point whatever its flags; the fill buckets hold exactly the non-guide, filled, open paths with two or more anchors, split into linear and non-linear |
| Classifier.BucketsPartition | src/validator/closeFilledPaths.jsx:179-197 | The loop's checks put every path in exactly one of stray point, filled line, filled open path or no target |
| Fixes.ClosePath | src/validator/closeFilledPaths.jsx:397-417 | The result is closed and only its anchors change. With coincident ends it has one anchor fewer, the first anchor takes the last one's incoming handle and all others are unchanged. Otherwise it has the same anchors, with the first incoming and last outgoing handles retracted onto their anchors |
| Fixes.ClosePathKeepsFillOutline | src/validator/closeFilledPaths.jsx:397-417 | Closing keeps the filled outline piece for piece. With distinct ends it is equal; with coincident ends only the zero-length closing piece disappears |
| Fixes.ClosePathKeepsVisibleFill | src/validator/hard-validator.jsx:412-432 | The painted fill region of the closed path equals that of the open one |
| Fixes.ClosingAddsStrokedPiece | src/validator/closeFilledPaths.jsx:386-389 | Closing a stroked path with distinct ends would add the straight closing piece to its stroke, which is why a stroked path is split first |
| Fixes.FixFilledOpenPath | src/validator/closeFilledPaths.jsx:370-391 | Returns true exactly when the path is unstroked or not inside a compound path. A refusal leaves the path as it was. An unstroked path is closed with its flags untouched. A stroked one becomes the closed, unstroked original plus an unfilled copy with the original anchors; after any fix no path passes the fill guard again |
| Fixes.FixFilledOpenPathKeepsAppearance | src/validator/hard-validator.jsx:385-406 | A successful repair paints exactly what the filled open path painted: the same fill region and, when stroked, the same open stroke |
| Fixes.RemoveNeedlessItem | src/validator/closeFilledPaths.jsx:322-332 | The item is deleted exactly when the confirmer answers true, and the return value is whether it was deleted |
| Fixes.FixFilledLine | src/validator/closeFilledPaths.jsx:351-363 | The path changes exactly when the confirmer says yes. A stroked line loses its fill and returns the negated answer, so it returns true exactly when nothing was done. An unstroked line is deleted and returns whether it was |
| Fixes.FixFilledLineCorrected | src/validator/closeFilledPaths.jsx:346-350 | The repair as documented: the same change, returning true exactly when the path was dealt with |
| Fixes.FixFilledLineReportsInverted | src/validator/closeFilledPaths.jsx:358 | On a stroked line the written return value is the negation of the documented one, while the repair is the same |
| CloseFilledPaths.Step | src/validator/closeFilledPaths.jsx:180-196 | One iteration. A stray point never reaches the fill logic: it becomes what `removeNeedlessItem` makes of it with the stray-point confirmer, and adds to `spCount` exactly when kept. Only non-guide filled open paths reach a fixer: a linear one becomes what `fixFilledLine` makes of it with the filled-line confirmer, any other what `fixFilledOpenPath` makes of it. `fopCount` grows exactly when the chosen fixer returns false. With the documented return value it grows exactly when a filled open path is left. Every other path is kept unchanged |
| CloseFilledPaths.Sweep | src/validator/closeFilledPaths.jsx:179-197 | The loop as a fold from the last path down, each path visited with the confirmers the later paths left behind. It gives one replacement per input path, in document order; the lemmas below state their contents |
| CloseFilledPaths.SweepLeavesOthers | src/validator/closeFilledPaths.jsx:179-197 | Over the whole loop, a path that is no target comes out unchanged and a stray point is kept or deleted |
| CloseFilledPaths.SweepRepairsOpenPaths | src/validator/closeFilledPaths.jsx:188-195 | Over the whole loop, every filled open path is replaced by what `fixFilledOpenPath` makes of it: closed, split, or left alone |
| CloseFilledPaths.SweepRepairsLines | src/validator/closeFilledPaths.jsx:189-191 | Over the whole loop, a stroked filled line stays as it was or loses only its fill, and an unstroked one stays as it was or is deleted |
| CloseFilledPaths.SweepKeepsAppearance | src/validator/closeFilledPaths.jsx:370-391 | After the loop, every filled open path that was repaired is replaced by paths that paint exactly what it painted |
| CloseFilledPaths.SweepCounters | src/validator/closeFilledPaths.jsx:171-197 | `spCount` is the number of stray points still in the document, at most the number of stray points; `fopCount` is at most the number of filled lines and filled open paths |
| CloseFilledPaths.SweepIntendedCountsUnresolved | src/validator/closeFilledPaths.jsx:346-350 | Counting with the documented return value, `fopCount` is exactly the number of paths that leave a filled open path behind |
| CloseFilledPaths.VisitPath | src/validator/closeFilledPaths.jsx:180-196 | The loop body, branch for branch, does what one iteration of the fold does |
| CloseFilledPaths.ProcessPaths | src/validator/closeFilledPaths.jsx:169-197 | The reverse-index loop with fresh confirmers gives the same replacement paths and counters as the fold |
| CloseFilledPaths.Summary | src/validator/closeFilledPaths.jsx:198-203 | The closing message has a stray-point line exactly when `spCount > 0` and an open-path line exactly when `fopCount > 0` |
| CloseFilledPaths.ErasedLineCountedUnresolved | src/validator/closeFilledPaths.jsx:189-191 | A stroked zero-area filled line whose fill the user erases leaves no filled open path, yet `fopCount` is 1 |
| HardValidator.VisitPath | src/validator/hard-validator.jsx:314-336 | A removed colourless path skips all later checks and a kept one falls through to them. A stray point becomes what `removeNeedlessItem` makes of it with the stray-point confirmer, and the iteration ends. Non-guide filled open paths go to `fixFilledLine` when linear and to `fixFilledOpenPath` otherwise; every other path is kept unchanged |
| HardValidator.LaterChecks | src/validator/hard-validator.jsx:325-336 | The checks after the colourless one, which never touch the colourless confirmer. A stray point goes to `removeNeedlessItem`, a linear target to `fixFilledLine` and any other target to `fixFilledOpenPath`, each with its own confirmer; any other path is kept unchanged |
| HardValidator.HandlePathItems | src/validator/hard-validator.jsx:313-337 | The pass as a fold from the last path down, each path visited with the confirmers the later paths left behind. It gives one replacement per input path, in document order; the lemmas below state their contents |
| HardValidator.OnlyTargetsAreRepaired | src/validator/hard-validator.jsx:313-337 | Over the whole pass, every path that is not a filled line or filled open path is kept or deleted, never changed; one that is not colourless, has two or more anchors and is not a filled open path is always kept |
| HardValidator.PassRepairsOpenPaths | src/validator/hard-validator.jsx:330-336 | Over the whole pass, every filled open path is replaced by what `fixFilledOpenPath` makes of it |
| HardValidator.PassRepairsLines | src/validator/hard-validator.jsx:331-332 | Over the whole pass, a stroked filled line stays as it was or loses only its fill, and an unstroked one stays as it was or is deleted |
| HardValidator.PassKeepsAppearance | src/validator/hard-validator.jsx:385-406 | After the pass, every filled open path that was repaired is replaced by paths that paint exactly what it painted |
| HardValidator.AgreesWithCloseFilledPaths | src/validator/hard-validator.jsx:298-339 | Without colourless paths the pass repairs every path as the stand-alone repair loop does and leaves its confirmers in the same state |
| HardValidator.FromFreshAgreesWithCloseFilledPaths | src/validator/hard-validator.jsx:301-311 | Starting, as the script does, from three fresh confirmers, a document without colourless paths is repaired exactly as the stand-alone fixer's loop repairs it from its two fresh confirmers |
| SoftValidator.SortPaths | src/validator/soft-validator.jsx:219-238 | The reverse loop's four bucket sizes are the numbers of colourless paths, stray points, filled lines and filled open paths |
| SoftValidator.FillBucketsSplitTargets | src/validator/soft-validator.jsx:231-236 | The filled-line and filled-open-path buckets together hold exactly the paths with two or more anchors that are non-guide, filled and open, split by `isLinear` |
| SoftValidator.ColorlessStrayCountedTwice | src/validator/soft-validator.jsx:222-229 | With no `continue` after the colourless check, a colourless path with at most one anchor counts as colourless and as a stray point |
| SoftValidator.Report | src/validator/soft-validator.jsx:240-254 | The report has one line per non-empty bucket, giving that bucket's size, and no line twice; all-empty buckets give the empty report |

## Left out

- Dialogs, alerts, selection and redraw (`selectItemIfNeed`, `app.selection`, `app.redraw`) are UI. Only the answer a `Confirmer` stores is modelled, and the user's replies are an input.
- Menu commands (`unlockAll`, `showAll`, selecting by artboard), hidden and off-artboard items, and layer traversal and removal (`handleLayers`, `isEmptyLayer`) are host operations with no path logic. So are `outlineTexts`, the raster settings, the colour-mode check and the graph, raster, linked-image and artboard counts.
- The host computes `area`; the model takes it as an input. `isLinear` is stated over real numbers, so floating-point rounding of `area * 100000` and NaN are not modelled.
- The fill and stroke outlines are pieces of cubic curves compared as data. A rasterised, pixel-level comparison is not modelled.
- The position in the document's `pathItems` at which `duplicate()` places the copy is host-defined. A split is modelled as the pair (closed fill path, open stroke path) standing in the original's place. Fixes.FixFilledOpenPathKeepsAppearance and the loop lemmas built on it paint that pair back to front. So they take the copy to be stacked in front of the original; a copy behind it would have its stroke partly covered by the fill.
- The wording of the reports is left out. Only which lines appear, and the counts they carry, are modelled.
- SoftValidator.SortPaths: that the read-only pass never changes a path holds by construction, since the model takes immutable values and returns only counts.
- Fixes.ClosePath: requires two or more anchors. Every caller reaches it only past the stray-point check, and the source indexes both ends.
- Each path has one reply per decision kind. A kind can come up at most once per path in every loop, so this loses nothing.

## Findings

| source | as written | input that shows it | evidently intended | confidence | as-written member | corrected member |
|---|---|---|---|---|---|---|
| src/validator/closeFilledPaths.jsx:351-358 | On a stroked line `fixFilledLine` returns `!shouldErase`, so the loop at lines 190-191 adds one to `fopCount` exactly when the user agreed to erase the fill | A stroked, filled, open two-anchor path with area 0 answered yes: its fill is erased, and the report still says one filled open path is left | The documented return value, "whether it was processed", so that `fopCount` counts the filled open paths actually left | not executed | CloseFilledPaths.ErasedLineCountedUnresolved | CloseFilledPaths.SweepIntendedCountsUnresolved |

=== FILE: classifier.dfy ===
/**
  Pure tests on a path: zero area, colourless, compound-path membership, and the
  bucket a path falls into when the three scripts walk the document.
 */
module Classifier {
  import opened Geometry

  function Abs(x: real): (r: real)
    ensures r >= 0.0 && (r == x || r == -x)
  {
    if x < 0.0 then -x else x
  }

  /** JavaScript `Math.round`: the nearest integer, halves rounded up. */
  function JsRound(x: real): (r: int)
    ensures x - 0.5 < r as real <= x + 0.5
  {
    (x + 0.5).Floor
  }

  /** `isLinear`: the area scaled by 100000 rounds to zero. */
  function IsLinear(area: real): (linear: bool)
    ensures linear <==> Abs(area) * 100000.0 < 0.5
  {
    JsRound(Abs(area) * 100000.0) == 0
  }

  /** Areas on either side of the threshold, and the threshold itself, where the
      scaled value 0.5 rounds up to 1. */
  lemma IsLinearBoundary()
    ensures IsLinear(0.0000049) && IsLinear(-0.0000049) && IsLinear(0.0)
    ensures !IsLinear(0.0000051) && !IsLinear(-0.0000051)
    ensures !IsLinear(0.000005)
  {
  }

  /** `isColorless`: neither filled nor stroked, and not a clipping mask. */
  predicate IsColorless(p: PathItem) {
    !p.filled && !p.stroked && !p.clipping
  }

  /** A colourless path is exactly one that paints nothing and masks nothing. */
  lemma ColorlessPaintsNothing(p: PathItem)
    requires |p.pathPoints| >= 1
    ensures IsColorless(p) <==> Paints(p) == [] && !p.clipping
  {
  }

  /** `isCompounded`: walk up through groups until a layer or a compound path. */
  function IsCompounded(o: Owner): (r: bool)
    ensures r ==> exists c :: c in Chain(o) && c.CompoundPath?
    ensures o.Group? ==> r == IsCompounded(o.parent)
  {
    match o
    case Layer => false
    case CompoundPath(_) => true
    case Group(up) => IsCompounded(up)
  }

  /** The containers above a path, innermost first, ending at its layer. */
  function Chain(o: Owner): (c: seq<Owner>)
    ensures |c| >= 1 && c[0] == o && c[|c| - 1] == Layer
  {
    match o
    case Layer => [o]
    case Group(up) => [o] + Chain(up)
    case CompoundPath(up) => [o] + Chain(up)
  }

  /** The first container above the path that is not a group is a compound path. */
  ghost predicate FirstNonGroupIsCompound(c: seq<Owner>) {
    exists k :: 0 <= k < |c| && c[k].CompoundPath? && forall j :: 0 <= j < k ==> c[j].Group?
  }

  lemma {:induction false} IsCompoundedIffFirstNonGroupIsCompound(o: Owner)
    ensures IsCompounded(o) <==> FirstNonGroupIsCompound(Chain(o))
  {
    match o
    case Layer =>
      assert Chain(o) == [Layer];
    case CompoundPath(_) =>
      assert Chain(o)[0].CompoundPath?;
    case Group(up) =>
      IsCompoundedIffFirstNonGroupIsCompound(up);
      LeadingGroupIsSkipped(o, Chain(up));
  }

  /** A group at the head of a chain does not decide whether the chain is compounded. */
  lemma LeadingGroupIsSkipped(g: Owner, cu: seq<Owner>)
    requires g.Group?
    ensures FirstNonGroupIsCompound([g] + cu) <==> FirstNonGroupIsCompound(cu)
  {
    var c := [g] + cu;
    if FirstNonGroupIsCompound(cu) {
      var k :| 0 <= k < |cu| && cu[k].CompoundPath? && forall j :: 0 <= j < k ==> cu[j].Group?;
      assert c[k + 1] == cu[k];
      forall j | 0 <= j < k + 1 ensures c[j].Group? {
        if j > 0 { assert c[j] == cu[j - 1]; }
      }
    }
    if FirstNonGroupIsCompound(c) {
      var k :| 0 <= k < |c| && c[k].CompoundPath? && forall j :: 0 <= j < k ==> c[j].Group?;
      assert k > 0;
      assert cu[k - 1] == c[k];
      forall j | 0 <= j < k - 1 ensures cu[j].Group? {
        assert cu[j] == c[j + 1];
      }
    }
  }

  /** Two groups deep inside a compound path is compounded; two groups deep inside
      a layer is not; a compound path inside a group still counts. */
  lemma IsCompoundedExamples()
    ensures IsCompounded(Group(Group(CompoundPath(Layer))))
    ensures !IsCompounded(Group(Group(Layer)))
    ensures IsCompounded(CompoundPath(Group(Layer)))
  {
  }

  /** Where a path lands when a script walks the document: a stray point (at most
      one anchor) first; otherwise a non-guide, filled, open path is a filled line
      or a filled open path by its area; everything else is not a target. */
  datatype Bucket = StrayPoint | FilledLine | FilledOpenPath | Untargeted

  /** The guard in front of the fixers. */
  predicate IsFilledOpen(p: PathItem) {
    !p.guides && p.filled && !p.closed
  }

  function Classify(p: PathItem): Bucket {
    if |p.pathPoints| <= 1 then StrayPoint
    else if IsFilledOpen(p) then (if IsLinear(p.area) then FilledLine else FilledOpenPath)
    else Untargeted
  }

  /** The stray-point check comes first, whatever the flags; the fill buckets hold
      exactly the guarded paths with two or more anchors, split by area. */
  lemma ClassifyFollowsCheckOrder(p: PathItem)
    ensures Classify(p) == StrayPoint <==> |p.pathPoints| <= 1
    ensures Classify(p) == FilledLine || Classify(p) == FilledOpenPath <==> |p.pathPoints| >= 2 && IsFilledOpen(p)
    ensures Classify(p) == FilledLine ==> IsLinear(p.area)
    ensures Classify(p) == FilledOpenPath ==> !IsLinear(p.area)
  {
  }

  /** A path the fixers would still have to handle. */
  predicate Unresolved(p: PathItem) {
    Classify(p) == FilledLine || Classify(p) == FilledOpenPath
  }

  /** A colourless path is never filled, so it is never a fixer's target. */
  lemma ColorlessIsNeverFixed(p: PathItem)
    requires IsColorless(p)
    ensures !Unresolved(p)
    ensures Classify(p) == StrayPoint <==> |p.pathPoints| <= 1
  {
  }

  /** How many paths fall into bucket `b`. */
  function CountBucket(ps: seq<PathItem>, b: Bucket): (n: nat)
    ensures n <= |ps|
  {
    if ps == [] then 0
    else CountBucket(ps[..|ps| - 1], b) + (if Classify(ps[|ps| - 1]) == b then 1 else 0)
  }

  /** How many paths are colourless. */
  function CountColorless(ps: seq<PathItem>): (n: nat)
    ensures n <= |ps|
  {
    if ps == [] then 0
    else CountColorless(ps[..|ps| - 1]) + (if IsColorless(ps[|ps| - 1]) then 1 else 0)
  }

  /** Every path falls into exactly one bucket. */
  lemma {:induction false} BucketsPartition(ps: seq<PathItem>)
    ensures CountBucket(ps, StrayPoint) + CountBucket(ps, FilledLine)
            + CountBucket(ps, FilledOpenPath) + CountBucket(ps, Untargeted) == |ps|
  {
    if ps != [] {
      BucketsPartition(ps[..|ps| - 1]);
    }
  }
}

=== FILE: close_filled_paths.dfy ===
/**
  The path loop of the stand-alone fixer: walk the document's paths from the last
  index down, offer to delete stray points, hand every non-guide filled open path to
  a fixer, and count the stray points and filled open paths left unresolved.
 */
module CloseFilledPaths {
  import opened Geometry
  import opened Classifier
  import opened Confirm
  import opened Fixes

  /** Which return value of `fixFilledLine` the loop counts with: the one the code
      returns, or the one its documentation promises. */
  datatype Reporting = AsWritten | Intended

  /** The loop's two confirmers. */
  datatype Confirmers = Confirmers(strayPoint: Confirmer, filledLine: Confirmer)

  const Start: Confirmers := Confirmers(Fresh, Fresh)

  /** One iteration: the paths standing in place of the visited path, whether it
      adds to `spCount` or to `fopCount`, and the confirmers afterwards. */
  datatype Visit = Visit(kept: seq<PathItem>, strayLeft: bool, openLeft: bool, confirmers: Confirmers)

  function LineFixer(mode: Reporting, p: PathItem, c: Confirmer, reply: Reply): Handled
    requires p.filled
  {
    if mode == AsWritten then FixFilledLine(p, c, reply) else FixFilledLineCorrected(p, c, reply)
  }

  /** Some path in `kept` is still a filled open path the loop would have to fix. */
  predicate HasUnresolved(kept: seq<PathItem>) {
    exists q :: q in kept && Unresolved(q)
  }

  /** The loop body on `p`, branch for branch: the paths standing in its place,
      whether it adds to `spCount` or to `fopCount`, and the confirmers afterwards.
      What it does to each kind of path is stated by `Step`. */
  function LoopBody(mode: Reporting, p: PathItem, cs: Confirmers, a: Answers): Visit {
    if |p.pathPoints| <= 1 then
      var h := RemoveNeedlessItem(p, cs.strayPoint, a.strayPoint);
      Visit(h.kept, !h.done, false, cs.(strayPoint := h.confirmer))
    else if !p.guides && p.filled && !p.closed then
      if IsLinear(p.area) then
        var h := LineFixer(mode, p, cs.filledLine, a.filledLine);
        Visit(h.kept, false, !h.done, cs.(filledLine := h.confirmer))
      else
        var r := FixFilledOpenPath(p);
        Visit(r.kept, false, !r.fixed, cs)
    else
      Visit([p], false, false, cs)
  }

  /** One pass of the loop body on `p`, by the kind of path. */
  function Step(mode: Reporting, p: PathItem, cs: Confirmers, a: Answers): (v: Visit)
    ensures Classify(p) == Untargeted ==> v == Visit([p], false, false, cs)
    ensures Classify(p) == StrayPoint ==>
      var h := RemoveNeedlessItem(p, cs.strayPoint, a.strayPoint);
      v == Visit(h.kept, !h.done, false, cs.(strayPoint := h.confirmer))
    ensures Classify(p) == FilledOpenPath ==>
      var r := FixFilledOpenPath(p);
      v == Visit(r.kept, false, !r.fixed, cs)
    ensures Classify(p) == FilledLine ==>
      var h := LineFixer(mode, p, cs.filledLine, a.filledLine);
      v == Visit(h.kept, false, !h.done, cs.(filledLine := h.confirmer))
    ensures Classify(p) == StrayPoint ==>
      && (v.kept == [] || v.kept == [p])
      && (v.strayLeft <==> v.kept == [p])
      && !v.openLeft
      && v.confirmers.filledLine == cs.filledLine
    ensures Classify(p) != StrayPoint ==> !v.strayLeft && v.confirmers.strayPoint == cs.strayPoint
    ensures Classify(p) == FilledOpenPath ==> v.confirmers == cs && (v.openLeft <==> !FixFilledOpenPath(p).fixed)
    ensures Classify(p) == FilledLine ==> (v.openLeft <==> !LineFixer(mode, p, cs.filledLine, a.filledLine).done)
    ensures v.openLeft ==> Unresolved(p)
    ensures mode == Intended ==> (v.openLeft <==> HasUnresolved(v.kept))
  {
    assert Classify(p) == FilledLine && mode == Intended && p.stroked ==>
      var h := LineFixer(mode, p, cs.filledLine, a.filledLine);
      h.done ==> h.kept == [p.(filled := false)];
    LoopBody(mode, p, cs, a)
  }

  /** The result of the whole loop: for each path, in document order, the paths
      standing in its place; the two counters; the confirmers at the end. */
  datatype Tally = Tally(reps: seq<seq<PathItem>>, spCount: nat, fopCount: nat, confirmers: Confirmers)

  /** Input stray points still in the document after the loop. */
  function KeptStrays(ps: seq<PathItem>, reps: seq<seq<PathItem>>): nat
    requires |reps| == |ps|
  {
    if ps == [] then 0
    else
      var n := |ps|;
      KeptStrays(ps[..n - 1], reps[..n - 1])
      + (if Classify(ps[n - 1]) == StrayPoint && reps[n - 1] != [] then 1 else 0)
  }

  /** Input paths whose replacement still holds a filled open path. */
  function UnresolvedCount(reps: seq<seq<PathItem>>): nat {
    if reps == [] then 0
    else UnresolvedCount(reps[..|reps| - 1]) + (if HasUnresolved(reps[|reps| - 1]) then 1 else 0)
  }

  /** The loop as a fold: the last path is visited first, then the ones before it
      with the confirmers it left behind. `answers[i]` is what the user would reply
      to each dialog raised for path `i`. */
  function Sweep(mode: Reporting, ps: seq<PathItem>, answers: seq<Answers>, cs: Confirmers): (t: Tally)
    requires |answers| == |ps|
    ensures |t.reps| == |ps|
    decreases |ps|
  {
    if ps == [] then Tally([], 0, 0, cs)
    else
      var n := |ps|;
      var v := LoopBody(mode, ps[n - 1], cs, answers[n - 1]);
      var rest := Sweep(mode, ps[..n - 1], answers[..n - 1], v.confirmers);
      Tally(rest.reps + [v.kept],
            rest.spCount + (if v.strayLeft then 1 else 0),
            rest.fopCount + (if v.openLeft then 1 else 0),
            rest.confirmers)
  }

  /** The last replacement of the fold is the last visit's outcome; the others are
      those of the fold over the paths before it. */
  lemma SweepUnfold(mode: Reporting, ps: seq<PathItem>, answers: seq<Answers>, cs: Confirmers)
    requires |answers| == |ps| && ps != []
    ensures var n := |ps|;
      var v := Step(mode, ps[n - 1], cs, answers[n - 1]);
      var rest := Sweep(mode, ps[..n - 1], answers[..n - 1], v.confirmers);
      var t := Sweep(mode, ps, answers, cs);
      && t.reps[n - 1] == v.kept
      && (forall i :: 0 <= i < n - 1 ==> t.reps[i] == rest.reps[i] && ps[..n - 1][i] == ps[i])
  {
  }

  /** Paths that are not targets come out untouched; stray points are kept or
      deleted, nothing else. */
  lemma {:induction false} SweepLeavesOthers(mode: Reporting, ps: seq<PathItem>, answers: seq<Answers>, cs: Confirmers)
    requires |answers| == |ps|
    ensures var t := Sweep(mode, ps, answers, cs);
      && (forall i :: 0 <= i < |ps| && Classify(ps[i]) == Untargeted ==> t.reps[i] == [ps[i]])
      && (forall i :: 0 <= i < |ps| && Classify(ps[i]) == StrayPoint ==> t.reps[i] == [] || t.reps[i] == [ps[i]])
    decreases |ps|
  {
    if ps != [] {
      var n := |ps|;
      var v := Step(mode, ps[n - 1], cs, answers[n - 1]);
      SweepLeavesOthers(mode, ps[..n - 1], answers[..n - 1], v.confirmers);
      SweepUnfold(mode, ps, answers, cs);
    }
  }

  /** Every filled open path of the document is replaced by what `fixFilledOpenPath`
      makes of it: closed, split into a fill path and a stroke path, or left alone. */
  lemma {:induction false} SweepRepairsOpenPaths(mode: Reporting, ps: seq<PathItem>, answers: seq<Answers>, cs: Confirmers)
    requires |answers| == |ps|
    ensures var t := Sweep(mode, ps, answers, cs);
      forall i :: 0 <= i < |ps| && Classify(ps[i]) == FilledOpenPath ==> t.reps[i] == FixFilledOpenPath(ps[i]).kept
    decreases |ps|
  {
    if ps != [] {
      var n := |ps|;
      var v := Step(mode, ps[n - 1], cs, answers[n - 1]);
      SweepRepairsOpenPaths(mode, ps[..n - 1], answers[..n - 1], v.confirmers);
      SweepUnfold(mode, ps, answers, cs);
    }
  }

  /** Every filled line of the document either keeps its place unchanged or, on a
      yes, loses its fill when stroked and is deleted when not. */
  lemma {:induction false} SweepRepairsLines(mode: Reporting, ps: seq<PathItem>, answers: seq<Answers>, cs: Confirmers)
    requires |answers| == |ps|
    ensures var t := Sweep(mode, ps, answers, cs);
      forall i :: 0 <= i < |ps| && Classify(ps[i]) == FilledLine ==>
        && (ps[i].stroked ==> t.reps[i] == [ps[i]] || t.reps[i] == [ps[i].(filled := false)])
        && (!ps[i].stroked ==> t.reps[i] == [] || t.reps[i] == [ps[i]])
    decreases |ps|
  {
    if ps != [] {
      var n := |ps|;
      var v := Step(mode, ps[n - 1], cs, answers[n - 1]);
      SweepRepairsLines(mode, ps[..n - 1], answers[..n - 1], v.confirmers);
      SweepUnfold(mode, ps, answers, cs);
      if Classify(ps[n - 1]) == FilledLine {
        StepRepairsLine(mode, ps[n - 1], cs, answers[n - 1]);
      }
    }
  }

  /** One visit of a filled line keeps it, drops it, or (stroked) keeps it unfilled. */
  lemma StepRepairsLine(mode: Reporting, p: PathItem, cs: Confirmers, a: Answers)
    requires Classify(p) == FilledLine
    ensures var v := Step(mode, p, cs, a);
      && (p.stroked ==> v.kept == [p] || v.kept == [p.(filled := false)])
      && (!p.stroked ==> v.kept == [] || v.kept == [p])
  {
  }

  /** After the loop, every filled open path that was repaired is replaced by paths
      that paint exactly what it painted. */
  lemma SweepKeepsAppearance(mode: Reporting, ps: seq<PathItem>, answers: seq<Answers>, cs: Confirmers)
    requires |answers| == |ps|
    ensures var t := Sweep(mode, ps, answers, cs);
      forall i :: 0 <= i < |ps| && Classify(ps[i]) == FilledOpenPath && FixFilledOpenPath(ps[i]).fixed ==>
        HasPoints(t.reps[i]) && PaintsAll(t.reps[i]) == Paints(ps[i])
  {
    SweepRepairsOpenPaths(mode, ps, answers, cs);
    forall i | 0 <= i < |ps| && Classify(ps[i]) == FilledOpenPath {
      FixFilledOpenPathKeepsAppearance(ps[i]);
    }
  }

  /** `spCount` is the number of stray points the user kept, and at most the number
      of stray points; `fopCount` is at most the number of filled lines and filled
      open paths. */
  lemma {:induction false} SweepCounters(mode: Reporting, ps: seq<PathItem>, answers: seq<Answers>, cs: Confirmers)
    requires |answers| == |ps|
    ensures var t := Sweep(mode, ps, answers, cs);
      && t.spCount == KeptStrays(ps, t.reps)
      && t.spCount <= CountBucket(ps, StrayPoint)
      && t.fopCount <= CountBucket(ps, FilledLine) + CountBucket(ps, FilledOpenPath)
    decreases |ps|
  {
    if ps != [] {
      var n := |ps|;
      var v := Step(mode, ps[n - 1], cs, answers[n - 1]);
      SweepCounters(mode, ps[..n - 1], answers[..n - 1], v.confirmers);
      var rest := Sweep(mode, ps[..n - 1], answers[..n - 1], v.confirmers);
      var t := Sweep(mode, ps, answers, cs);
      assert t.reps[..n - 1] == rest.reps;
    }
  }

  /** Counting with the documented return value of `fixFilledLine`, `fopCount` is
      exactly the number of paths whose replacement still holds a filled open path. */
  lemma {:induction false} SweepIntendedCountsUnresolved(ps: seq<PathItem>, answers: seq<Answers>, cs: Confirmers)
    requires |answers| == |ps|
    ensures var t := Sweep(Intended, ps, answers, cs);
      t.fopCount == UnresolvedCount(t.reps)
    decreases |ps|
  {
    if ps != [] {
      var n := |ps|;
      var v := Step(Intended, ps[n - 1], cs, answers[n - 1]);
      SweepIntendedCountsUnresolved(ps[..n - 1], answers[..n - 1], v.confirmers);
      var rest := Sweep(Intended, ps[..n - 1], answers[..n - 1], v.confirmers);
      var t := Sweep(Intended, ps, answers, cs);
      assert t.reps[..n - 1] == rest.reps;
    }
  }

  /** Visiting the path at index `i` of a prefix, with outcome `v`, then the paths
      before it. */
  lemma SweepLast(mode: Reporting, ps: seq<PathItem>, answers: seq<Answers>, i: nat, cs: Confirmers, v: Visit)
    requires |answers| == |ps| && i < |ps|
    requires LoopBody(mode, ps[i], cs, answers[i]) == v
    ensures var rest := Sweep(mode, ps[..i], answers[..i], v.confirmers);
      Sweep(mode, ps[..i + 1], answers[..i + 1], cs)
      == Tally(rest.reps + [v.kept],
               rest.spCount + (if v.strayLeft then 1 else 0),
               rest.fopCount + (if v.openLeft then 1 else 0),
               rest.confirmers)
  {
    assert ps[..i + 1][..i] == ps[..i] && answers[..i + 1][..i] == answers[..i];
  }

  /** One turn of the reverse loop keeps "the fold of the paths not yet visited,
      followed by what the loop has collected, is the fold of all paths". */
  lemma SweepStep(ps: seq<PathItem>, answers: seq<Answers>, i: nat, before: Confirmers, v: Visit,
                  reps: seq<seq<PathItem>>, spCount: nat, fopCount: nat, total: Tally)
    requires |answers| == |ps| && i < |ps|
    requires LoopBody(AsWritten, ps[i], before, answers[i]) == v
    requires var t := Sweep(AsWritten, ps[..i + 1], answers[..i + 1], before);
      total == Tally(t.reps + reps, t.spCount + spCount, t.fopCount + fopCount, t.confirmers)
    ensures var t := Sweep(AsWritten, ps[..i], answers[..i], v.confirmers);
      total == Tally(t.reps + ([v.kept] + reps),
                     t.spCount + (spCount + if v.strayLeft then 1 else 0),
                     t.fopCount + (fopCount + if v.openLeft then 1 else 0),
                     t.confirmers)
  {
    SweepLast(AsWritten, ps, answers, i, before, v);
    var t := Sweep(AsWritten, ps[..i], answers[..i], v.confirmers);
    assert (t.reps + [v.kept]) + reps == t.reps + ([v.kept] + reps);
  }

  /** The body of the loop, branch for branch. */
  method VisitPath(path: PathItem, cfmStrayPoint: Confirmer, cfmFilledLine: Confirmer, a: Answers)
    returns (kept: seq<PathItem>, strayLeft: bool, openLeft: bool, stray': Confirmer, line': Confirmer)
    ensures LoopBody(AsWritten, path, Confirmers(cfmStrayPoint, cfmFilledLine), a)
            == Visit(kept, strayLeft, openLeft, Confirmers(stray', line'))
  {
    strayLeft, openLeft, stray', line' := false, false, cfmStrayPoint, cfmFilledLine;
    if |path.pathPoints| <= 1 {
      var removed := RemoveNeedlessItem(path, cfmStrayPoint, a.strayPoint);
      if !removed.done { strayLeft := true; }
      stray', kept := removed.confirmer, removed.kept;
      return;
    }
    if !path.guides && path.filled && !path.closed {
      if IsLinear(path.area) {
        var fixed := FixFilledLine(path, cfmFilledLine, a.filledLine);
        if !fixed.done { openLeft := true; }
        line', kept := fixed.confirmer, fixed.kept;
      } else {
        var fixed := FixFilledOpenPath(path);
        if !fixed.fixed { openLeft := true; }
        kept := fixed.kept;
      }
    } else {
      kept := [path];
    }
  }

  /** The loop as the script runs it, counters and all. */
  method ProcessPaths(ps: seq<PathItem>, answers: seq<Answers>)
    returns (spCount: nat, fopCount: nat, reps: seq<seq<PathItem>>)
    requires |answers| == |ps|
    ensures |reps| == |ps|
    ensures var t := Sweep(AsWritten, ps, answers, Start);
      reps == t.reps && spCount == t.spCount && fopCount == t.fopCount
  {
    var cfmStrayPoint, cfmFilledLine := Fresh, Fresh;
    spCount, fopCount, reps := 0, 0, [];
    var i := |ps|;
    assert ps[..i] == ps && answers[..i] == answers;
    while i > 0
      invariant 0 <= i <= |ps|
      invariant var t := Sweep(AsWritten, ps[..i], answers[..i], Confirmers(cfmStrayPoint, cfmFilledLine));
        Sweep(AsWritten, ps, answers, Start)
        == Tally(t.reps + reps, t.spCount + spCount, t.fopCount + fopCount, t.confirmers)
    {
      i := i - 1;
      ghost var before := Confirmers(cfmStrayPoint, cfmFilledLine);
      var kept, strayLeft, openLeft;
      kept, strayLeft, openLeft, cfmStrayPoint, cfmFilledLine :=
        VisitPath(ps[i], cfmStrayPoint, cfmFilledLine, answers[i]);
      SweepStep(ps, answers, i, before, Visit(kept, strayLeft, openLeft, Confirmers(cfmStrayPoint, cfmFilledLine)),
                reps, spCount, fopCount, Sweep(AsWritten, ps, answers, Start));
      if strayLeft { spCount := spCount + 1; }
      if openLeft { fopCount := fopCount + 1; }
      reps := [kept] + reps;
    }
    assert ps[..0] == [] && answers[..0] == [];
  }

  /** The closing message: one line per non-zero counter, or the all-clear. */
  datatype Notice = StrayPointsLeft(count: nat) | OpenPathsLeft(count: nat) | AllClear

  function Summary(spCount: nat, fopCount: nat): (lines: seq<Notice>)
    ensures lines == [AllClear] <==> spCount == 0 && fopCount == 0
    ensures StrayPointsLeft(spCount) in lines <==> spCount > 0
    ensures OpenPathsLeft(fopCount) in lines <==> fopCount > 0
    ensures forall l :: l in lines ==> l == AllClear || l == StrayPointsLeft(spCount) || l == OpenPathsLeft(fopCount)
  {
    var lines := (if spCount > 0 then [StrayPointsLeft(spCount)] else [])
                 + (if fopCount > 0 then [OpenPathsLeft(fopCount)] else []);
    assert AllClear !in lines;
    if lines == [] then [AllClear] else lines
  }

  /** A stroked, filled, open line of zero area whose fill the user agrees to erase
      comes out of the loop with no filled open path left, yet `fopCount` is 1. */
  lemma ErasedLineCountedUnresolved()
    ensures var pt := PathPoint(Point(0.0, 0.0), Point(0.0, 0.0), Point(0.0, 0.0));
      var end := PathPoint(Point(10.0, 0.0), Point(10.0, 0.0), Point(10.0, 0.0));
      var p := PathItem([pt, end], true, true, false, false, false, 0.0, Layer);
      var yes := Reply(Yes, false);
      var t := Sweep(AsWritten, [p], [Answers(yes, yes, yes)], Start);
      t.reps == [[p.(filled := false)]] && UnresolvedCount(t.reps) == 0 && t.fopCount == 1
  {
    var pt := PathPoint(Point(0.0, 0.0), Point(0.0, 0.0), Point(0.0, 0.0));
    var end := PathPoint(Point(10.0, 0.0), Point(10.0, 0.0), Point(10.0, 0.0));
    var p := PathItem([pt, end], true, true, false, false, false, 0.0, Layer);
    var yes := Reply(Yes, false);
    var t := Sweep(AsWritten, [p], [Answers(yes, yes, yes)], Start);
    assert t.reps[..0] == [];
    assert Classify(p) == FilledLine;
    assert [p][..0] == [];
    assert !HasUnresolved([p.(filled := false)]);
    assert UnresolvedCount(t.reps) == UnresolvedCount([]) + 0;
  }
}

=== FILE: confirm.dfy ===
/**
  The confirmation dialog with a "do not show again" check box. Each decision kind
  has its own confirmer; once the box is ticked on a yes or no, that answer is
  replayed for the rest of the run without asking.
 */
module Confirm {

  /** How the dialog was left: the yes button (`show()` gives 1), the no button
      (0), or closed without a choice (2). */
  datatype Button = Yes | No | Dismissed

  /** What the user does if the dialog is shown: a button and the check box. */
  datatype Reply = Reply(button: Button, dontShowAgain: bool)

  /** The user's reply for each decision kind that may come up for one path. A reply
      is only read when its confirmer actually shows the dialog. */
  datatype Answers = Answers(colorless: Reply, strayPoint: Reply, filledLine: Reply)

  /** The confirmer's state: whether to show the dialog, and the stored answer. */
  datatype Confirmer = Confirmer(shouldConfirm: bool, result: bool)

  /** A newly constructed confirmer: it asks, and has no answer yet. */
  const Fresh: Confirmer := Confirmer(true, false)

  datatype Decision = Decision(answer: bool, next: Confirmer)

  /** `confirmIfNeed`: the stored answer when silent; otherwise the answer given in
      the dialog, which is stored together with the check box. Closing the dialog
      gives no and stores nothing. */
  function ConfirmIfNeed(c: Confirmer, reply: Reply): (d: Decision)
    ensures d.answer <==> if c.shouldConfirm then reply.button == Yes else c.result
    ensures !c.shouldConfirm || reply.button == Dismissed ==> d.next == c
    ensures c.shouldConfirm && reply.button != Dismissed ==>
      d.next.result == d.answer && (d.next.shouldConfirm <==> !reply.dontShowAgain)
    ensures d.next.shouldConfirm ==> c.shouldConfirm
  {
    if !c.shouldConfirm then Decision(c.result, c)
    else if reply.button == Dismissed then Decision(false, c)
    else
      var answer := reply.button == Yes;
      Decision(answer, Confirmer(!reply.dontShowAgain, answer))
  }

  /** The answers of successive `confirmIfNeed` calls on one confirmer. */
  function Replay(c: Confirmer, replies: seq<Reply>): (answers: seq<bool>)
    ensures |answers| == |replies|
    ensures forall i :: 0 <= i < |replies| && answers[i] ==>
      c.result || exists j :: 0 <= j <= i && replies[j].button == Yes
    decreases replies
  {
    if replies == [] then []
    else
      var d := ConfirmIfNeed(c, replies[0]);
      [d.answer] + Replay(d.next, replies[1..])
  }

  /** A confirmer fresh from its constructor answers yes only after the user has
      pressed yes at that call or an earlier one. */
  lemma FreshSaysYesOnlyAfterYes(replies: seq<Reply>)
    ensures forall i :: 0 <= i < |replies| && Replay(Fresh, replies)[i] ==>
      exists j :: 0 <= j <= i && replies[j].button == Yes
  {
  }

  /** A silent confirmer answers with its stored result whatever the user would do. */
  lemma {:induction false} SilentConfirmerReplays(c: Confirmer, replies: seq<Reply>)
    requires !c.shouldConfirm
    ensures forall i :: 0 <= i < |replies| ==> Replay(c, replies)[i] == c.result
    decreases replies
  {
    if replies != [] {
      SilentConfirmerReplays(c, replies[1..]);
    }
  }

  /** A yes or no given with the box ticked is the answer to that call and to every
      later call of the run. */
  lemma DontShowAgainIsSticky(c: Confirmer, first: Reply, later: seq<Reply>)
    requires c.shouldConfirm && first.button != Dismissed && first.dontShowAgain
    ensures forall i :: 0 <= i <= |later| ==> Replay(c, [first] + later)[i] == (first.button == Yes)
  {
    var d := ConfirmIfNeed(c, first);
    assert ([first] + later)[1..] == later;
    SilentConfirmerReplays(d.next, later);
  }

  /** While the box is never ticked, every call shows the dialog and answers yes
      exactly when the yes button is pressed; a closed dialog answers no. */
  lemma {:induction false} AsksUntilTicked(c: Confirmer, replies: seq<Reply>)
    requires c.shouldConfirm
    requires forall i :: 0 <= i < |replies| ==> !replies[i].dontShowAgain
    ensures forall i :: 0 <= i < |replies| ==> Replay(c, replies)[i] == (replies[i].button == Yes)
    decreases replies
  {
    if replies != [] {
      var d := ConfirmIfNeed(c, replies[0]);
      assert d.next.shouldConfirm;
      AsksUntilTicked(d.next, replies[1..]);
    }
  }

  /** Closing the dialog answers no and leaves the confirmer as it was, so the next
      call asks again. */
  lemma DismissedKeepsState(c: Confirmer, reply: Reply)
    requires c.shouldConfirm && reply.button == Dismissed
    ensures ConfirmIfNeed(c, reply) == Decision(false, c)
    ensures ConfirmIfNeed(c, reply).next.shouldConfirm
  {
  }
}

=== FILE: fixes.dfy ===
/**
  The repairs applied to one path: closing a filled open path without changing its
  fill, splitting a stroked one into a fill path and a stroke path, dealing with a
  filled zero-area line, and deleting an item after confirmation.
 */
module Fixes {
  import opened Geometry
  import opened Classifier
  import opened Confirm

  /** What became of a path after a prompted repair: the value the repair returned
      (`done`), the paths standing in its place, and the confirmer afterwards. */
  datatype Handled = Handled(done: bool, kept: seq<PathItem>, confirmer: Confirmer)

  /** What became of a path after `fixFilledOpenPath`, which prompts nothing. */
  datatype Repair = Repair(fixed: bool, kept: seq<PathItem>)

  /** `closePath`: close the path so that its fill keeps its shape. When the two end
      anchors lie on the same spot the last one is merged into the first, whose
      incoming handle takes over the last one's; otherwise the handles at the new
      joint are retracted so that the closing piece is straight. */
  function ClosePath(p: PathItem): (q: PathItem)
    requires |p.pathPoints| >= 2
    ensures q.closed
    ensures q.(pathPoints := p.pathPoints, closed := p.closed) == p
    ensures var pts, n := p.pathPoints, |p.pathPoints|;
      if pts[0].anchor == pts[n - 1].anchor then
        && |q.pathPoints| == n - 1
        && q.pathPoints[0].anchor == pts[0].anchor
        && q.pathPoints[0].rightDirection == pts[0].rightDirection
        && q.pathPoints[0].leftDirection == pts[n - 1].leftDirection
        && (forall i :: 1 <= i < n - 1 ==> q.pathPoints[i] == pts[i])
      else
        && |q.pathPoints| == n
        && q.pathPoints[0] == pts[0].(leftDirection := pts[0].anchor)
        && q.pathPoints[n - 1] == pts[n - 1].(rightDirection := pts[n - 1].anchor)
        && (forall i :: 1 <= i < n - 1 ==> q.pathPoints[i] == pts[i])
  {
    var pts := p.pathPoints;
    var n := |pts|;
    var first, last := pts[0], pts[n - 1];
    if first.anchor == last.anchor then
      p.(closed := true, pathPoints := [first.(leftDirection := last.leftDirection)] + pts[1..n - 1])
    else
      p.(closed := true,
         pathPoints := [first.(leftDirection := first.anchor)] + pts[1..n - 1]
                       + [last.(rightDirection := last.anchor)])
  }

  /** Closing keeps the filled outline piece for piece. With distinct ends the outline
      is unchanged; with coincident ends the only piece lost is the single-point
      closing line the open path was filled with. */
  lemma ClosePathKeepsFillOutline(p: PathItem)
    requires |p.pathPoints| >= 2 && !p.closed
    ensures var pts := p.pathPoints;
      var q := ClosePath(p);
      var here := pts[0].anchor;
      if here == pts[|pts| - 1].anchor then
        FillOutline(p) == FillOutline(q) + [Straight(here, here)]
      else
        FillOutline(q) == FillOutline(p)
  {
    var pts := p.pathPoints;
    var n := |pts|;
    var qs := ClosePath(p).pathPoints;
    if pts[0].anchor == pts[n - 1].anchor {
      InteriorIgnoresEndHandles(qs, pts[..n - 1]);
      InteriorSnoc(pts);
      assert Join(qs[n - 2], qs[0]) == Join(pts[n - 2], pts[n - 1]);
    } else {
      InteriorIgnoresEndHandles(qs, pts);
    }
  }

  /** Closing leaves the painted fill region as it was. */
  lemma ClosePathKeepsVisibleFill(p: PathItem)
    requires |p.pathPoints| >= 2 && !p.closed
    ensures Visible(FillOutline(ClosePath(p))) == Visible(FillOutline(p))
  {
    var pts := p.pathPoints;
    var here := pts[0].anchor;
    ClosePathKeepsFillOutline(p);
    if here == pts[|pts| - 1].anchor {
      VisibleAppend(FillOutline(ClosePath(p)), [Straight(here, here)]);
      assert Visible([Straight(here, here)]) == [];
    }
  }

  /** Closing a stroked path would stroke the new closing piece as well: this is why
      a stroked path is split before its fill is closed. */
  lemma ClosingAddsStrokedPiece(p: PathItem)
    requires |p.pathPoints| >= 2 && !p.closed
    requires p.pathPoints[0].anchor != p.pathPoints[|p.pathPoints| - 1].anchor
    ensures var pts := p.pathPoints;
      StrokeOutline(ClosePath(p))
      == StrokeOutline(p) + [Straight(pts[|pts| - 1].anchor, pts[0].anchor)]
  {
    InteriorIgnoresEndHandles(ClosePath(p).pathPoints, p.pathPoints);
  }

  /** `fixFilledOpenPath`: an unstroked path is closed; a stroked one inside a
      compound path is refused; any other stroked one is copied with `duplicate()`,
      the original losing its stroke and being closed, the copy losing its fill. */
  function FixFilledOpenPath(p: PathItem): (r: Repair)
    requires |p.pathPoints| >= 2
    ensures r.fixed <==> !p.stroked || !IsCompounded(p.parent)
    ensures !r.fixed ==> r.kept == [p]
    ensures r.fixed ==> forall q :: q in r.kept ==> q.closed || !q.filled
    ensures !p.stroked ==> r.kept == [ClosePath(p)]
    ensures p.stroked && !IsCompounded(p.parent) ==>
      && |r.kept| == 2
      && r.kept[0] == ClosePath(p.(stroked := false))
      && r.kept[1] == p.(filled := false)
  {
    if !p.stroked then Repair(true, [ClosePath(p)])
    else if IsCompounded(p.parent) then Repair(false, [p])
    else
      Repair(true, [ClosePath(p.(stroked := false)), p.(filled := false)])
  }

  /** The closed fill path of a repair paints the fill the open path painted. */
  lemma ClosedFillPaints(p: PathItem)
    requires |p.pathPoints| >= 2 && p.filled && !p.closed
    ensures Paints(ClosePath(p.(stroked := false))) == [Fill(Visible(FillOutline(p)))]
  {
    var closing := p.(stroked := false);
    ClosePathKeepsVisibleFill(closing);
    assert FillOutline(closing) == FillOutline(p);
  }

  /** A successful `fixFilledOpenPath` paints exactly what the filled open path
      painted: the same fill region and, when stroked, the same open stroke. The
      paths are painted back to front, so this takes the copy made by `duplicate()`
      to sit in front of the original; a copy behind it would have its stroke
      partly covered by the fill. */
  lemma FixFilledOpenPathKeepsAppearance(p: PathItem)
    requires |p.pathPoints| >= 2 && p.filled && !p.closed
    ensures var r := FixFilledOpenPath(p);
      r.fixed ==> HasPoints(r.kept) && PaintsAll(r.kept) == Paints(p)
  {
    var r := FixFilledOpenPath(p);
    ClosedFillPaints(p);
    var c := ClosePath(p.(stroked := false));
    if !p.stroked {
      assert p.(stroked := false) == p;
      assert r.kept == [c];
      assert PaintsAll(r.kept) == Paints(c) + PaintsAll([]);
    } else if r.fixed {
      var copy := p.(filled := false);
      assert r.kept == [c, copy];
      assert Paints(copy) == [Stroke(StrokeOutline(p))];
      assert r.kept[1..] == [copy] && [copy][1..] == [];
      assert PaintsAll([copy]) == Paints(copy) + PaintsAll([]);
      assert PaintsAll(r.kept) == Paints(c) + PaintsAll([copy]);
    }
  }

  /** `removeNeedlessItem`: delete the item when the confirmer says yes, and report
      whether it was deleted. */
  function RemoveNeedlessItem(item: PathItem, c: Confirmer, reply: Reply): (h: Handled)
    ensures h.done <==> ConfirmIfNeed(c, reply).answer
    ensures h.done <==> h.kept == []
    ensures h.kept == [] || h.kept == [item]
    ensures h.confirmer == ConfirmIfNeed(c, reply).next
  {
    var d := ConfirmIfNeed(c, reply);
    if d.answer then Handled(true, [], d.next) else Handled(false, [item], d.next)
  }

  /** `fixFilledLine` as written: a stroked line loses its fill, an unstroked one is
      deleted, each only on a yes. The stroked branch returns the negation of the
      answer, so it reports true exactly when nothing was done. */
  function FixFilledLine(p: PathItem, c: Confirmer, reply: Reply): (h: Handled)
    requires p.filled
    ensures h.confirmer == ConfirmIfNeed(c, reply).next
    ensures h.kept != [p] <==> ConfirmIfNeed(c, reply).answer
    ensures p.stroked ==> h.kept == [p] || h.kept == [p.(filled := false)]
    ensures !p.stroked ==> h.kept == [] || h.kept == [p]
    ensures p.stroked ==> (h.done <==> h.kept == [p])
    ensures !p.stroked ==> (h.done <==> h.kept == [])
  {
    if p.stroked then
      var d := ConfirmIfNeed(c, reply);
      var shouldErase := d.answer;
      Handled(!shouldErase, [if shouldErase then p.(filled := false) else p], d.next)
    else
      RemoveNeedlessItem(p, c, reply)
  }

  /** `fixFilledLine` as its documentation describes it: the same repair, returning
      whether the path was dealt with. */
  function FixFilledLineCorrected(p: PathItem, c: Confirmer, reply: Reply): (h: Handled)
    requires p.filled
    ensures h.confirmer == ConfirmIfNeed(c, reply).next
    ensures h.done <==> h.kept != [p]
    ensures h.done <==> ConfirmIfNeed(c, reply).answer
    ensures p.stroked ==> h.kept == [p] || h.kept == [p.(filled := false)]
    ensures !p.stroked ==> h.kept == [] || h.kept == [p]
  {
    var h := FixFilledLine(p, c, reply);
    Handled(h.kept != [p], h.kept, h.confirmer)
  }

  /** On a stroked line the written return value is the opposite of whether the fill
      was erased; the repair itself is the same. */
  lemma FixFilledLineReportsInverted(p: PathItem, c: Confirmer, reply: Reply)
    requires p.filled && p.stroked
    ensures var written, meant := FixFilledLine(p, c, reply), FixFilledLineCorrected(p, c, reply);
      written.kept == meant.kept && written.done == !meant.done
  {
  }
}

=== FILE: geometry.dfy ===
/**
  The vector geometry the path checks read and write: points, path points with
  their two direction handles, the container a path sits in, and the outlines the
  host paints for a path's fill and for its stroke.
 */
module Geometry {

  /** A position on the artboard (the host's two-element `[x, y]` arrays). */
  datatype Point = Point(x: real, y: real)

  /** A host `PathPoint`: the anchor with its incoming (`leftDirection`) and
      outgoing (`rightDirection`) handles, all absolute positions. A handle equal
      to its anchor is retracted. */
  datatype PathPoint = PathPoint(anchor: Point, leftDirection: Point, rightDirection: Point)

  /** The container a page item sits in. Following `parent` always ends at a Layer,
      which is why the chain is a datatype rather than a sequence. */
  datatype Owner = Layer | Group(parent: Owner) | CompoundPath(parent: Owner)

  /** A host `PathItem`, reduced to what the path checks read and write. `area` is
      the host's own reading and is taken as an input. */
  datatype PathItem = PathItem(
    pathPoints: seq<PathPoint>,
    filled: bool,
    stroked: bool,
    closed: bool,
    guides: bool,
    clipping: bool,
    area: real,
    parent: Owner)

  /** One cubic Bezier piece of an outline: start, two control points, end. */
  datatype Segment = Segment(p0: Point, p1: Point, p2: Point, p3: Point)

  /** The piece the host draws from path point `a` to path point `b`. */
  function Join(a: PathPoint, b: PathPoint): Segment {
    Segment(a.anchor, a.rightDirection, b.leftDirection, b.anchor)
  }

  /** A straight piece from `a` to `b`. */
  function Straight(a: Point, b: Point): Segment {
    Segment(a, a, b, b)
  }

  /** A piece that collapses to a single point and so encloses and paints nothing. */
  predicate IsDot(s: Segment) {
    s.p0 == s.p1 && s.p1 == s.p2 && s.p2 == s.p3
  }

  /** The pieces between consecutive path points, in order. */
  function Interior(pts: seq<PathPoint>): (r: seq<Segment>)
    ensures |r| == if |pts| < 2 then 0 else |pts| - 1
    ensures forall i :: 0 <= i < |r| ==> r[i] == Join(pts[i], pts[i + 1])
  {
    if |pts| < 2 then [] else [Join(pts[0], pts[1])] + Interior(pts[1..])
  }

  /** The interior pieces read only the anchors, the outgoing handles of all but the
      last point and the incoming handles of all but the first. */
  lemma InteriorIgnoresEndHandles(a: seq<PathPoint>, b: seq<PathPoint>)
    requires |a| == |b|
    requires forall i :: 0 <= i < |a| ==> a[i].anchor == b[i].anchor
    requires forall i :: 0 <= i < |a| - 1 ==> a[i].rightDirection == b[i].rightDirection
    requires forall i :: 1 <= i < |a| ==> a[i].leftDirection == b[i].leftDirection
    ensures Interior(a) == Interior(b)
  {
    var ia, ib := Interior(a), Interior(b);
    forall i | 0 <= i < |ia| ensures ia[i] == ib[i] {
      assert ia[i] == Join(a[i], a[i + 1]) && ib[i] == Join(b[i], b[i + 1]);
    }
  }

  /** The last interior piece joins the last two points. */
  lemma InteriorSnoc(pts: seq<PathPoint>)
    requires |pts| >= 2
    ensures Interior(pts) == Interior(pts[..|pts| - 1]) + [Join(pts[|pts| - 2], pts[|pts| - 1])]
  {
    var n := |pts|;
    var whole, front := Interior(pts), Interior(pts[..n - 1]);
    var rhs := front + [Join(pts[n - 2], pts[n - 1])];
    assert |whole| == |rhs|;
    forall i | 0 <= i < |whole| ensures whole[i] == rhs[i] {
      if i < n - 2 {
        assert pts[..n - 1][i] == pts[i] && pts[..n - 1][i + 1] == pts[i + 1];
        assert rhs[i] == front[i] == Join(pts[i], pts[i + 1]);
      } else {
        assert rhs[i] == Join(pts[n - 2], pts[n - 1]);
      }
    }
  }

  /** The outline whose inside the host fills. An open path is filled as if a
      straight line led from its last point back to its first. */
  function FillOutline(p: PathItem): seq<Segment>
    requires |p.pathPoints| >= 1
  {
    var pts := p.pathPoints;
    var first, last := pts[0], pts[|pts| - 1];
    Interior(pts) + [if p.closed then Join(last, first) else Straight(last.anchor, first.anchor)]
  }

  /** The outline the host strokes: the interior pieces, and the closing piece only
      when the path is closed. */
  function StrokeOutline(p: PathItem): seq<Segment>
    requires |p.pathPoints| >= 1
  {
    var pts := p.pathPoints;
    Interior(pts) + (if p.closed then [Join(pts[|pts| - 1], pts[0])] else [])
  }

  /** The outline with its single-point pieces dropped. */
  function Visible(ss: seq<Segment>): (r: seq<Segment>)
    ensures forall s :: s in r ==> s in ss && !IsDot(s)
  {
    if ss == [] then [] else (if IsDot(ss[0]) then [] else [ss[0]]) + Visible(ss[1..])
  }

  lemma {:induction false} VisibleAppend(a: seq<Segment>, b: seq<Segment>)
    ensures Visible(a + b) == Visible(a) + Visible(b)
  {
    if a != [] {
      var head := if IsDot(a[0]) then [] else [a[0]];
      assert (a + b)[0] == a[0] && (a + b)[1..] == a[1..] + b;
      assert Visible(a + b) == head + Visible(a[1..] + b);
      VisibleAppend(a[1..], b);
      assert Visible(a) == head + Visible(a[1..]);
      assert head + (Visible(a[1..]) + Visible(b)) == (head + Visible(a[1..])) + Visible(b);
    } else {
      assert a + b == b;
    }
  }

  /** What painting a path puts on the page: its fill, then its stroke. */
  datatype Paint = Fill(region: seq<Segment>) | Stroke(line: seq<Segment>)

  predicate HasPoints(ps: seq<PathItem>) {
    forall q :: q in ps ==> |q.pathPoints| >= 1
  }

  function Paints(p: PathItem): seq<Paint>
    requires |p.pathPoints| >= 1
  {
    (if p.filled then [Fill(Visible(FillOutline(p)))] else [])
    + (if p.stroked then [Stroke(StrokeOutline(p))] else [])
  }

  /** What a run of paths paints, back to front. */
  function PaintsAll(ps: seq<PathItem>): seq<Paint>
    requires HasPoints(ps)
  {
    if ps == [] then [] else Paints(ps[0]) + PaintsAll(ps[1..])
  }
}

=== FILE: hard_validator.dfy ===
/**
  The path pass of the validating fixer: per path, offer to delete a colourless
  path, then a stray point, then hand a non-guide filled open path to a fixer. It
  keeps no counts; only the document changes.
 */
module HardValidator {
  import opened Geometry
  import opened Classifier
  import opened Confirm
  import opened Fixes
  import CloseFilledPaths

  /** The pass's three confirmers, one per decision kind. */
  datatype Confirmers = Confirmers(colorless: Confirmer, strayPoint: Confirmer, filledLine: Confirmer)

  const Start: Confirmers := Confirmers(Fresh, Fresh, Fresh)

  /** The paths standing in place of one visited path, and the confirmers afterwards. */
  datatype Visit = Visit(kept: seq<PathItem>, confirmers: Confirmers)

  /** The checks after the colourless one: stray point, then the fixers. They are
      the stand-alone fixer's loop body, run with this pass's confirmers. */
  function LaterChecks(p: PathItem, cs: Confirmers, a: Answers): (v: Visit)
    ensures v.confirmers.colorless == cs.colorless
    ensures Classify(p) == StrayPoint ==>
      var h := RemoveNeedlessItem(p, cs.strayPoint, a.strayPoint);
      v == Visit(h.kept, cs.(strayPoint := h.confirmer))
    ensures Classify(p) == Untargeted ==> v == Visit([p], cs)
    ensures Classify(p) == FilledOpenPath ==> v == Visit(FixFilledOpenPath(p).kept, cs)
    ensures Classify(p) == FilledLine ==>
      var h := FixFilledLine(p, cs.filledLine, a.filledLine);
      v == Visit(h.kept, cs.(filledLine := h.confirmer))
  {
    var w := CloseFilledPaths.Step(CloseFilledPaths.AsWritten, p,
                                   CloseFilledPaths.Confirmers(cs.strayPoint, cs.filledLine), a);
    Visit(w.kept, cs.(strayPoint := w.confirmers.strayPoint, filledLine := w.confirmers.filledLine))
  }

  /** One pass of the loop body of `handlePathItems`. */
  function VisitPath(p: PathItem, cs: Confirmers, a: Answers): (v: Visit)
    ensures IsColorless(p) && ConfirmIfNeed(cs.colorless, a.colorless).answer ==>
      v == Visit([], cs.(colorless := ConfirmIfNeed(cs.colorless, a.colorless).next))
    ensures IsColorless(p) && !ConfirmIfNeed(cs.colorless, a.colorless).answer ==>
      v == LaterChecks(p, cs.(colorless := ConfirmIfNeed(cs.colorless, a.colorless).next), a)
    ensures !IsColorless(p) ==> v == LaterChecks(p, cs, a)
    ensures Classify(p) == StrayPoint && !IsColorless(p) ==>
      var h := RemoveNeedlessItem(p, cs.strayPoint, a.strayPoint);
      v == Visit(h.kept, cs.(strayPoint := h.confirmer))
    ensures Classify(p) == Untargeted && !IsColorless(p) ==> v == Visit([p], cs)
    ensures Classify(p) == FilledOpenPath ==> v == Visit(FixFilledOpenPath(p).kept, cs)
    ensures Classify(p) == FilledLine ==>
      var h := FixFilledLine(p, cs.filledLine, a.filledLine);
      v == Visit(h.kept, cs.(filledLine := h.confirmer))
  {
    if IsColorless(p) then
      var h := RemoveNeedlessItem(p, cs.colorless, a.colorless);
      if h.done then Visit([], cs.(colorless := h.confirmer))
      else LaterChecks(p, cs.(colorless := h.confirmer), a)
    else
      LaterChecks(p, cs, a)
  }

  /** The paths standing in place of each input path, and the final confirmers. */
  datatype Pass = Pass(reps: seq<seq<PathItem>>, confirmers: Confirmers)

  /** `handlePathItems` as a fold, last path first. */
  function HandlePathItems(ps: seq<PathItem>, answers: seq<Answers>, cs: Confirmers): (r: Pass)
    requires |answers| == |ps|
    ensures |r.reps| == |ps|
    decreases |ps|
  {
    if ps == [] then Pass([], cs)
    else
      var n := |ps|;
      var v := VisitPath(ps[n - 1], cs, answers[n - 1]);
      var rest := HandlePathItems(ps[..n - 1], answers[..n - 1], v.confirmers);
      Pass(rest.reps + [v.kept], rest.confirmers)
  }

  /** Only filled open paths are repaired: every other path is kept as it is or
      deleted after a prompt, and only colourless paths and stray points can be
      deleted that way. */
  lemma {:induction false} OnlyTargetsAreRepaired(ps: seq<PathItem>, answers: seq<Answers>, cs: Confirmers)
    requires |answers| == |ps|
    ensures var r := HandlePathItems(ps, answers, cs);
      && (forall i :: 0 <= i < |ps| && !Unresolved(ps[i]) ==> r.reps[i] == [] || r.reps[i] == [ps[i]])
      && (forall i :: 0 <= i < |ps| && Classify(ps[i]) == Untargeted && !IsColorless(ps[i]) ==> r.reps[i] == [ps[i]])
    decreases |ps|
  {
    if ps != [] {
      var n := |ps|;
      var v := VisitPath(ps[n - 1], cs, answers[n - 1]);
      OnlyTargetsAreRepaired(ps[..n - 1], answers[..n - 1], v.confirmers);
    }
  }

  /** Every filled open path is replaced by what `fixFilledOpenPath` makes of it. */
  lemma {:induction false} PassRepairsOpenPaths(ps: seq<PathItem>, answers: seq<Answers>, cs: Confirmers)
    requires |answers| == |ps|
    ensures var r := HandlePathItems(ps, answers, cs);
      forall i :: 0 <= i < |ps| && Classify(ps[i]) == FilledOpenPath ==> r.reps[i] == FixFilledOpenPath(ps[i]).kept
    decreases |ps|
  {
    if ps != [] {
      var n := |ps|;
      var v := VisitPath(ps[n - 1], cs, answers[n - 1]);
      PassRepairsOpenPaths(ps[..n - 1], answers[..n - 1], v.confirmers);
    }
  }

  /** Every filled line either keeps its place unchanged or, on a yes, loses its fill
      when stroked and is deleted when not. */
  lemma {:induction false} PassRepairsLines(ps: seq<PathItem>, answers: seq<Answers>, cs: Confirmers)
    requires |answers| == |ps|
    ensures var r := HandlePathItems(ps, answers, cs);
      forall i :: 0 <= i < |ps| && Classify(ps[i]) == FilledLine ==>
        && (ps[i].stroked ==> r.reps[i] == [ps[i]] || r.reps[i] == [ps[i].(filled := false)])
        && (!ps[i].stroked ==> r.reps[i] == [] || r.reps[i] == [ps[i]])
    decreases |ps|
  {
    if ps != [] {
      var n := |ps|;
      var v := VisitPath(ps[n - 1], cs, answers[n - 1]);
      PassRepairsLines(ps[..n - 1], answers[..n - 1], v.confirmers);
    }
  }

  /** After the pass, every filled open path that was repaired is replaced by paths
      that paint exactly what it painted. */
  lemma PassKeepsAppearance(ps: seq<PathItem>, answers: seq<Answers>, cs: Confirmers)
    requires |answers| == |ps|
    ensures var r := HandlePathItems(ps, answers, cs);
      forall i :: 0 <= i < |ps| && Classify(ps[i]) == FilledOpenPath && FixFilledOpenPath(ps[i]).fixed ==>
        HasPoints(r.reps[i]) && PaintsAll(r.reps[i]) == Paints(ps[i])
  {
    PassRepairsOpenPaths(ps, answers, cs);
    forall i | 0 <= i < |ps| && Classify(ps[i]) == FilledOpenPath {
      FixFilledOpenPathKeepsAppearance(ps[i]);
    }
  }

  /** On a document without colourless paths this pass repairs exactly as the
      stand-alone fixer's loop does, with the same stray-point and filled-line
      confirmers. */
  lemma {:induction false} AgreesWithCloseFilledPaths(ps: seq<PathItem>, answers: seq<Answers>, cs: Confirmers)
    requires |answers| == |ps|
    requires forall i :: 0 <= i < |ps| ==> !IsColorless(ps[i])
    ensures var r := HandlePathItems(ps, answers, cs);
      var t := CloseFilledPaths.Sweep(CloseFilledPaths.AsWritten, ps, answers,
                                      CloseFilledPaths.Confirmers(cs.strayPoint, cs.filledLine));
      r.reps == t.reps
      && r.confirmers == Confirmers(cs.colorless, t.confirmers.strayPoint, t.confirmers.filledLine)
    decreases |ps|
  {
    if ps != [] {
      var n := |ps|;
      var p := ps[n - 1];
      var v := VisitPath(p, cs, answers[n - 1]);
      AgreesWithCloseFilledPaths(ps[..n - 1], answers[..n - 1], v.confirmers);
    }
  }

  /** Run as the script runs it, with three fresh confirmers, on a document without
      colourless paths, the pass leaves the same paths as the stand-alone fixer's
      loop with its two fresh confirmers. */
  lemma FromFreshAgreesWithCloseFilledPaths(ps: seq<PathItem>, answers: seq<Answers>)
    requires |answers| == |ps|
    requires forall i :: 0 <= i < |ps| ==> !IsColorless(ps[i])
    ensures HandlePathItems(ps, answers, Start).reps
            == CloseFilledPaths.Sweep(CloseFilledPaths.AsWritten, ps, answers, CloseFilledPaths.Start).reps
  {
    AgreesWithCloseFilledPaths(ps, answers, Start);
  }
}

=== FILE: soft_validator.dfy ===
/**
  The path pass of the read-only checker: sort the paths into colourless items,
  stray points, filled lines and filled open paths, and report each non-empty
  bucket. Nothing is changed.
 */
module SoftValidator {
  import opened Geometry
  import opened Classifier

  /** The four bucket sizes. */
  datatype Buckets = Buckets(colorless: nat, strayPoints: nat, filledLines: nat, filledOpenPaths: nat)

  /** The bucket sizes, counted path by path. */
  function Census(ps: seq<PathItem>): Buckets {
    Buckets(CountColorless(ps), CountBucket(ps, StrayPoint),
            CountBucket(ps, FilledLine), CountBucket(ps, FilledOpenPath))
  }

  function Plus(a: Buckets, b: Buckets): Buckets {
    Buckets(a.colorless + b.colorless, a.strayPoints + b.strayPoints,
            a.filledLines + b.filledLines, a.filledOpenPaths + b.filledOpenPaths)
  }

  /** The loop of `handlePathItems`, last path first. */
  method SortPaths(ps: seq<PathItem>) returns (b: Buckets)
    ensures b == Census(ps)
    ensures b.strayPoints + b.filledLines + b.filledOpenPaths <= |ps|
  {
    var colorless, strayPoints, filledLines, filledOpenPaths := 0, 0, 0, 0;
    var i := |ps|;
    assert ps[..i] == ps;
    while i > 0
      invariant 0 <= i <= |ps|
      invariant Census(ps) == Plus(Census(ps[..i]), Buckets(colorless, strayPoints, filledLines, filledOpenPaths))
    {
      i := i - 1;
      var path := ps[i];
      assert ps[..i + 1][..i] == ps[..i];
      if IsColorless(path) {
        colorless := colorless + 1;
      }
      if |path.pathPoints| <= 1 {
        strayPoints := strayPoints + 1;
        continue;
      }
      if !path.guides && path.filled && !path.closed {
        if IsLinear(path.area) {
          filledLines := filledLines + 1;
        } else {
          filledOpenPaths := filledOpenPaths + 1;
        }
      }
    }
    assert ps[..0] == [];
    b := Buckets(colorless, strayPoints, filledLines, filledOpenPaths);
    BucketsPartition(ps);
  }

  /** The buckets split every path with two or more points that is not a guide, is
      filled and is open, by area; all other paths land in neither fill bucket. */
  lemma {:induction false} FillBucketsSplitTargets(ps: seq<PathItem>)
    ensures Census(ps).filledLines + Census(ps).filledOpenPaths == CountTargets(ps)
    ensures Census(ps).filledLines == CountLinearTargets(ps)
  {
    if ps != [] {
      FillBucketsSplitTargets(ps[..|ps| - 1]);
    }
  }

  /** Paths with two or more points that are non-guide, filled and open. */
  function CountTargets(ps: seq<PathItem>): nat {
    if ps == [] then 0
    else
      var p := ps[|ps| - 1];
      CountTargets(ps[..|ps| - 1]) + (if |p.pathPoints| >= 2 && IsFilledOpen(p) then 1 else 0)
  }

  /** Those of them whose area rounds to zero. */
  function CountLinearTargets(ps: seq<PathItem>): nat {
    if ps == [] then 0
    else
      var p := ps[|ps| - 1];
      CountLinearTargets(ps[..|ps| - 1])
      + (if |p.pathPoints| >= 2 && IsFilledOpen(p) && IsLinear(p.area) then 1 else 0)
  }

  /** The colourless check has no `continue`, so a colourless stray point is counted
      in both buckets. */
  lemma ColorlessStrayCountedTwice(p: PathItem)
    requires IsColorless(p) && |p.pathPoints| <= 1
    ensures Census([p]) == Buckets(1, 1, 0, 0)
  {
    assert [p][..0] == [];
  }

  datatype Topic = ColorlessItems | StrayPoints | FilledLines | FilledOpenPaths

  /** One line of the report: a bucket and its size. */
  datatype Line = Line(topic: Topic, count: nat)

  function SizeOf(b: Buckets, topic: Topic): nat {
    match topic
    case ColorlessItems => b.colorless
    case StrayPoints => b.strayPoints
    case FilledLines => b.filledLines
    case FilledOpenPaths => b.filledOpenPaths
  }

  /** The report of `handlePathItems`: a line for each non-empty bucket, in the order
      colourless, stray points, filled lines, filled open paths. */
  function Report(b: Buckets): (lines: seq<Line>)
    ensures lines == [] <==> b == Buckets(0, 0, 0, 0)
    ensures forall l :: l in lines ==> l.count == SizeOf(b, l.topic) && l.count > 0
    ensures forall t: Topic :: SizeOf(b, t) > 0 ==> Line(t, SizeOf(b, t)) in lines
    ensures forall i, j :: 0 <= i < j < |lines| ==> lines[i].topic != lines[j].topic
  {
    (if b.colorless > 0 then [Line(ColorlessItems, b.colorless)] else [])
    + (if b.strayPoints > 0 then [Line(StrayPoints, b.strayPoints)] else [])
    + (if b.filledLines > 0 then [Line(FilledLines, b.filledLines)] else [])
    + (if b.filledOpenPaths > 0 then [Line(FilledOpenPaths, b.filledOpenPaths)] else [])
  }
}
